=== FILE: README.md ===
# Per-pair candle engine of the crypto trading demo, in Dafny

This project models the data service of a small simulated crypto exchange.
For each trading pair (BTCUSDT, ETHUSDT, …) the service keeps:

- a last price and a percent change;
- a closed-candle history of at most 288 OHLCV candles;
- the "current" candle that the pair's simulation loop is building;
- `LastCandle`, the candle most recently published;
- a set of WebSocket subscribers.

The state changes through four kinds of step:

- **Bootstrap** (`GenerateInitialCandleData`) writes a day of synthetic 5-minute candles.
- **Price tick** perturbs the price and folds it into the current candle.
- **Candle tick** closes the current candle into history when a new 10-second bucket starts.
- **Subscriber operations** add and remove subscribers, broadcast and copy out history. A broadcast drops every connection whose send failed.

The repository holds two near-identical copies of the service,
`internal/services/data_service.go` and `backend/internal/services/data_service.go`.
Where they differ, the model keeps both variants apart:

- The volume a price tick adds is a `Copy` parameter (`Internal` adds up to 20, `Backend` up to 5).
- History retrieval has one member per variant.

Everything else is shared. The citations below use the internal copy; the
backend copy has the same code at the matching lines (bootstrap 69-122,
simulation loop 125-242, broadcast 245-271, subscribers 296-323).

Modelling choices:

- **Prices and volumes** are `real`. The ordering properties are proved over the reals. secureFloat64 is exact even in float64, because it divides an integer below 2^53 by 2^53.
- **Random draws** are parameters in [0, 1) (`Entropy.IsUnit`). This is the range `SecureFloat64` is proved to return, including its 0.5 fallback. A bootstrap consumes 288 tuples of six draws, in the order the Go code makes them.
- **The clock** is integer epoch seconds. The 5-minute and 10-second roundings are floors (`Models.FloorTo`).
- **Each tick is one atomic step**, as the pair's mutex makes it. The loop's local `currentCandle` is carried next to the pair in `Simulation.Engine`.
- **Transport failures** are a parameter: the set of connections whose `WriteJSON` fails.

Modules:

| file | module | what it holds |
|---|---|---|
| wrappers.dfy | Wrappers | Option, Result |
| models.dfy | Models | Candle, TradingPair, Conn, candle predicates, floors |
| entropy.dfy | Entropy | secureFloat64 |
| bootstrap.dfy | Bootstrap | GenerateInitialCandleData |
| subscribers.dfy | Subscribers | subscribe, unsubscribe, BroadcastUpdate |
| simulation.dfy | Simulation | loop setup, price tick, candle tick, invariant, runs of steps |
| registry.dfy | Registry | the symbol map, initialisation, GetCandleData variants, Add/RemoveSubscriber, HTTP status of a history request |
| locking.dfy | Locking | lock requests of the backend GetCandleData |

The main result is the invariant `Simulation.Inv`. It holds after start-up and is
kept by every step, so it holds after any sequence of steps (`Simulation.Run`). It states:

- history has at most 288 entries;
- history timestamps strictly increase;
- every candle satisfies `0 < low <= min(open, close) <= max(open, close) <= high`;
- every volume is non-negative;
- the current candle is not older than the newest history entry;
- `LastCandle` is the current candle;
- the current candle's close is the last price.

## Model

| member | source | states |
|---|---|---|
| Entropy.SecureFloat64 | internal/services/data_service.go:83-94 | The draw lies in [0, 1). A failed entropy read gives exactly 0.5. A successful read n gives the value whose product with 2^53 is n. |
| Entropy.SecureFloat64Monotone | internal/services/data_service.go:85-93 | A larger read gives a strictly larger draw, and two draws differ by exactly the reads' difference over 2^53: the scaling keeps the read's even spread. |
| Entropy.FallbackIsOrdinaryDraw | internal/services/data_service.go:87-93 | The 0.5 returned on a failed read equals the draw for the read 2^52, so a failure cannot be told apart from that read. |
| Entropy.SecureFloat64Injective | internal/services/data_service.go:85-93 | Distinct integer reads give distinct draws. |
| Models.NewTradingPair | internal/services/data_service.go:71-80 | A new pair has the given symbol and price, zero change, empty history and no subscribers. |
| Models.FloorTo | internal/services/data_service.go:117-121 | The bucket start is the multiple of the unit at or below t, less than one unit before it; it is a floor also for negative t. |
| Models.Flat | internal/services/data_service.go:279-286 | The new candle has open = high = low = close = the given price, the given time and volume. It is ordered, and sound when the price is positive and the volume non-negative. |
| Models.AppendStrictlyIncreasing | internal/services/data_service.go:268-269 | Appending a candle strictly newer than the newest entry (or to an empty history) keeps the history strictly time-ordered. |
| Models.AppendSound | internal/services/data_service.go:268-269 | Appending a sound candle to a sound history gives a sound history. |
| Models.SuffixSound | internal/services/data_service.go:271-273 | Every suffix of a sound history is sound. |
| Models.SuffixStrictlyIncreasing | internal/services/data_service.go:271-273 | Dropping the oldest entries of a strictly time-ordered history keeps it strictly time-ordered. |
| Bootstrap.StartSecond | internal/services/data_service.go:115-122 | The first candle's second lies on a 300-second boundary and in (now − 86700, now − 86400]. It is the 5-minute floor of now minus 86400. |
| Bootstrap.CandleTime | internal/services/data_service.go:135-154 | Candle i is stamped at a whole second, 300·i seconds after the start. From a start on a 5-minute boundary every stamp lies on a 300000 ms boundary. |
| Bootstrap.WalkStep | internal/services/data_service.go:137-140 | A walk step from a positive base lands in [0.98·base, 1.02·base), so the base stays positive. |
| Bootstrap.Jitter | internal/services/data_service.go:143-146 | Open and close lie in [0.995·base, 1.005·base) for a positive base. |
| Bootstrap.ShapeCandle | internal/services/data_service.go:147-151 | The candle keeps the given time, open and close. A volume draw in [0, 1) gives a volume in [50, 200). Price soundness is stated by ShapeCandleSound. |
| Bootstrap.ShapeCandleSound | internal/services/data_service.go:147-151 | With positive open and close and draws in [0, 1), high ≥ max(open, close), 0 < low ≤ min(open, close), and the volume is in [50, 200). The low formula cannot invert. |
| Bootstrap.DrawCandle | internal/services/data_service.go:142-160 | A candle drawn around a positive base is sound, has the given time, and its open and close are within half a percent of the base. |
| Bootstrap.Generate | internal/services/data_service.go:134-163 | One candle per draw tuple. Candle k is stamped (start + 300·k)·1000 ms. From a positive base every candle is sound with volume in [50, 200). |
| Bootstrap.EvenlySpacedIsStrictlyIncreasing | internal/services/data_service.go:135-154 | Candles 300000 ms apart are strictly time-ordered. |
| Bootstrap.GenerateInitialCandleData | internal/services/data_service.go:114-169 | Exactly 288 candles at (start + 300·i)·1000 ms, strictly increasing. LastCandle is the final candle and LastPrice its close. Symbol, change and subscribers are untouched. For a positive price and draws in [0, 1), every candle is sound with volume in [50, 200) and the new price is positive. |
| Bootstrap.BootstrapSpacing | internal/services/data_service.go:134-154 | Consecutive candles are exactly 300000 ms apart. The newest starts 5 minutes before the current 5-minute boundary. |
| Simulation.LiveBucket | internal/services/data_service.go:255-261 | The live bucket start, in milliseconds, lies on a 10000 ms boundary and within the 9 seconds before now. |
| Simulation.KeepLast | internal/services/data_service.go:271-273 | The result holds min(length, 288) entries and is a suffix of the input. |
| Simulation.StartSimulation | internal/services/data_service.go:181-214 | An empty history is bootstrapped first, and a non-empty one is left alone. The loop starts from the newest history candle, which always exists. |
| Simulation.StartEstablishesInv | internal/services/data_service.go:181-214 | A fresh pair with a positive seed price starts in a state satisfying the invariant. This holds when the loop bootstraps it and when initialisation already did. |
| Simulation.MovePrice | internal/services/data_service.go:226-229 | A positive price moves into [0.998·p, 1.002·p), so it stays positive. |
| Simulation.VolumeIncrement | internal/services/data_service.go:239 | A price tick adds volume in [0, 20) in the internal copy and [0, 5) in the backend copy. |
| Simulation.PercentChange | internal/services/data_service.go:244-248 | The change is the inverse of scaling: price = open·(1 + change/100). |
| Simulation.PriceTick | internal/services/data_service.go:223-249 | High becomes max(high, p) and low min(low, p); close = p = LastPrice. Time and open are kept, and volume does not decrease. LastCandle is the current candle. History, symbol and subscribers are unchanged. With history, LastPrice = history[0].open·(1 + change/100); without, the change is untouched. An ordered candle stays ordered. |
| Simulation.PriceTickVolumeByCopy | backend/internal/services/data_service.go:172-197 | The two copies' price ticks differ only in the volume added: draw·20 (internal) against draw·5 (backend). |
| Simulation.CloseCandle | internal/services/data_service.go:267-276 | The candle is appended only when history is empty or it is strictly newer than the newest entry. History is then the newest 288 of the old history plus the candle, and the candle is the newest entry; otherwise history is unchanged. The length bound and strict time order are preserved. |
| Simulation.CandleTick | internal/services/data_service.go:254-295 | Nothing changes unless the 10-second bucket is newer than the current candle. Otherwise history is closed as above. The new current candle has Time = bucket start, open = high = low = close = LastPrice and volume in [50, 70). LastCandle equals it. Price, change, symbol and subscribers are unchanged. |
| Simulation.TrimDropsOldest | internal/services/data_service.go:268-273 | Appending to a full history of 288 drops exactly the oldest entry. |
| Simulation.RolloverKeepsClosedCandle | internal/services/data_service.go:264-276 | After a rollover that passes the guard, the closed candle is the newest history entry, unmodified. |
| Simulation.FirstRolloverDropsStartCandle | internal/services/data_service.go:264-269 | The loop starts from a candle with the newest entry's timestamp, so a candle tick straight after start-up leaves history unchanged. |
| Simulation.NonCandleStepsKeepHistory | internal/services/data_service.go:223-249 | Any run of price ticks and subscriber changes leaves the history and the current candle's time unchanged. |
| Simulation.FirstRolloverAfterTicksDropsStartCandle | internal/services/data_service.go:177-269 | After any price ticks and subscriber changes since start-up, the first candle tick leaves history unchanged. This holds whether the loop bootstrapped the pair or initialisation did. So the start candle is dropped with every price tick folded into it. |
| Simulation.CloseCandleSound | internal/services/data_service.go:268-273 | Closing a sound candle into a sound history keeps every entry sound. |
| Simulation.PriceTickPreservesInv | internal/services/data_service.go:223-249 | A price tick with draws in [0, 1) keeps the invariant. The oldest open is non-zero, so the percent change is defined. |
| Simulation.CandleTickPreservesInv | internal/services/data_service.go:254-295 | A candle tick keeps the invariant. |
| Simulation.Apply | internal/services/data_service.go:216-297 | Any single step keeps the invariant: price tick, candle tick, subscribe, unsubscribe or broadcast pruning. |
| Simulation.Run | internal/services/data_service.go:216-297 | Any sequence of steps from an invariant state ends in an invariant state, for the same symbol. |
| Simulation.RunKeepsHistoryNonEmpty | internal/services/data_service.go:216-297 | No sequence of steps empties a non-empty history. |
| Subscribers.Subscribe | internal/services/data_service.go:353-355 | The connection becomes a member. No other member and no other field changes. |
| Subscribers.Unsubscribe | internal/services/data_service.go:367-369 | The connection stops being a member. No other member and no other field changes. |
| Subscribers.SubscribeIdempotent | internal/services/data_service.go:355 | Subscribing twice equals subscribing once, and subscribing a member changes nothing. |
| Subscribers.UnsubscribeIdempotent | internal/services/data_service.go:369 | Unsubscribing twice equals once, and unsubscribing a non-member changes nothing. |
| Subscribers.UnsubscribeUndoesSubscribe | internal/services/data_service.go:346-372 | Unsubscribing a connection just subscribed (not a member before) restores the pair. |
| Subscribers.Prune | internal/services/data_service.go:305-326 | The surviving set is a subset of the subscribers. A subscriber survives exactly when its send did not fail. |
| Subscribers.BroadcastUpdate | internal/services/data_service.go:301-327 | With no subscribers nothing happens and nothing is sent. Otherwise the update carries symbol, price, change and LastCandle. The new set is exactly the old set minus the failed connections. Delivered and closed connections partition the old set. Nothing but the subscriber set changes. |
| Registry.SeededPair | internal/services/data_service.go:99-107 | A seeded pair has full, strictly ordered history, LastPrice = LastCandle.close, zero change and no subscribers. With a positive seed the history is sound and the price positive. |
| Registry.InitializeTradingPairs | internal/services/data_service.go:97-111 | Exactly the five seeded symbols, each a new pair at its seed price, bootstrapped with its own draws. |
| Registry.SeedPricesPositive | internal/services/data_service.go:99-103 | Every seed price is positive. |
| Registry.InitializedPairsSound | internal/services/data_service.go:97-111 | After initialisation, every pair has its symbol and 288 strictly ordered, sound candles. Its last price is the newest close and positive. It has zero change and no subscribers. |
| Registry.AddSubscriber | internal/services/data_service.go:347-358 | An unknown symbol fails with ErrTradingPairNotFound, and that is the only failure. Otherwise only that pair's subscriber set changes, and it gains the connection. |
| Registry.RemoveSubscriber | internal/services/data_service.go:361-372 | An unknown symbol fails with ErrTradingPairNotFound, and that is the only failure. Otherwise only that pair's subscriber set changes, and it loses the connection. |
| Registry.SubscriptionIdempotent | internal/services/data_service.go:346-372 | Adding twice equals adding once, and removing twice equals removing once. Removing a non-member returns the registry unchanged. |
| Registry.RemoveUndoesAdd | internal/services/data_service.go:346-372 | Removing a connection just added restores the registry. |
| Registry.GetCandleDataAsWritten | internal/services/data_service.go:330-344 | A known symbol yields a copy equal to its history. An unknown symbol yields a fresh "trading pair not found" error, not the sentinel. |
| Registry.GetCandleData | internal/services/data_service.go:330-344 | The same with ErrTradingPairNotFound for an unknown symbol. |
| Registry.BackendGetCandleData | backend/internal/services/data_service.go:274-293 | An unknown symbol fails with ErrTradingPairNotFound. An empty history is regenerated, so the result has 288 strictly ordered candles and the registry holds the regenerated pair. Otherwise the result equals the history and the registry is unchanged. |
| Registry.BackendAgreesAndRegeneratesOnce | backend/internal/services/data_service.go:274-293 | On a pair with history, the backend variant returns what the internal GetCandleData returns and leaves the registry unchanged. A second request after a regeneration changes nothing and returns the same candles. |
| Registry.CandlesStatus | internal/handlers/api_handlers.go:63-71 | 200 exactly for a result, 404 exactly for ErrTradingPairNotFound; any other error is 500. |
| Registry.AsWrittenUnknownSymbolIs500 | internal/services/data_service.go:331-334 | As written, an unknown symbol in the internal copy is answered 500. |
| Registry.UnknownSymbolIs404 | backend/internal/services/data_service.go:275-278 | With the sentinel, an unknown symbol is a 404 (internal) or ErrTradingPairNotFound (backend). Known symbols are served as before. |
| Locking.GetCandleDataLocksAsWritten | backend/internal/services/data_service.go:280-286 | On an empty history the write-lock request made under the caller's own read lock is never granted, from any mutex state. With history present, from a mutex no writer holds, the call completes and leaves the mutex as it found it. |
| Locking.GetCandleDataLocks | backend/internal/services/data_service.go:280-286 | Regenerating under the write lock before taking the read lock completes from an unlocked mutex, and leaves it unlocked. |
| Locking.LazyRegenerationDeadlocks | backend/internal/services/data_service.go:280-286 | From an unlocked mutex and an empty history, the written order blocks and the reordered one completes. |

## Findings

| source | as written | input that shows it | evidently intended | confidence | as-written member | corrected member |
|---|---|---|---|---|---|---|
| internal/services/data_service.go:333 | An unknown symbol returns `errors.New("trading pair not found")`, not `ErrTradingPairNotFound`. So the handler at internal/handlers/api_handlers.go:65 answers 500. | GET /api/candles/FOOUSDT (a symbol not in the map) | Return the sentinel, as AddSubscriber and RemoveSubscriber do and as the backend copy does at line 277, so the answer is 404 | medium: the handler (internal/handlers/api_handlers.go) and cmd/trading/main.go:32-37 belong to a revision in which NewDataService, NewWebSocketManager and NewWebSocketHandler take a logger. The data_service.go shown here does not, so this handler may never be paired with this GetCandleData; not executed | Registry.AsWrittenUnknownSymbolIs500 | Registry.UnknownSymbolIs404 |
| backend/internal/services/data_service.go:280-286 | GetCandleData holds the pair's read lock (released by defer) while calling GenerateInitialCandleData, which takes the write lock of the same mutex at line 80. The write lock waits for the caller's own read lock, forever. Because a pending write lock also holds back new read locks, the pair's later RLock calls (BroadcastUpdate at line 246) and its simulation loop's Lock calls (lines 174 and 210) block too, so the whole pair freezes. | GetCandleData on a known pair whose history is empty | Regenerate under the write lock first, then take the read lock for the copy | high that the call blocks if reached; latent: unreachable in the code shown. backend/main.go:30 fills every history before the server starts at backend/main.go:61-66, and no step empties a history (Simulation.RunKeepsHistoryNonEmpty); not executed | Locking.GetCandleDataLocksAsWritten | Locking.GetCandleDataLocks |

`Registry.BackendGetCandleData` models the functional effect of the corrected order.

## Left out

- Goroutines, tickers, the stop channel and the RWMutex are not modelled, except for the lock-order finding. There only held locks are modelled, not the queue of pending writers that holds back new readers. Each tick is one atomic step, and a run of steps is a sequence in lock order. BroadcastUpdate deletes from the subscriber map while holding only the read lock; this matters only under concurrency, which the model does not cover.
- crypto/rand is not modelled: its reads and failures are `Entropy.EntropyRead` values, and every other random draw is a parameter in [0, 1).
- Float64 rounding, infinities and NaN are not modelled. All results hold over the reals. PercentChange requires a non-zero oldest open, where Go would produce Inf or NaN. The invariant guarantees a positive open, so the requirement always holds in a running engine.
- Local-time handling of `time.Date` is left out. Time is integer epoch seconds, rounded by floor. The Go code rounds the local wall clock instead, at internal/services/data_service.go:117-121, :200-203 and :257-261.
  - The 10-second rounding agrees with the model whenever the local UTC offset is a multiple of 10 seconds.
  - The 5-minute rounding agrees only when the offset is a multiple of 5 minutes. With an offset of +60 s at epoch second 0, Go gives −60 and the model gives 0.
- Daylight-saving fall-back is not modelled. During the repeated local hour, `time.Date` may resolve a wall-clock time to either offset. So the bootstrap start and the live bucket can come out 3600 s early or late.
  - While the live bucket is early, it is not newer than the current candle, so the rollover at internal/services/data_service.go:264 does not fire.
  - A late bucket stamps a candle an hour in the future, and rollovers stall once the repeated hour ends.
- The int64 range of timestamps is not modelled.
- Registry.InitializeTradingPairs: bootstraps every pair at one clock reading, where the Go code reads the clock once per pair. It does not start the simulation goroutines; `Simulation.StartSimulation` models their setup.
- The HTTP and WebSocket handlers, the upgrader, JSON encoding, logging and the server's lifecycle are left out, except for the candles handler's choice of status, which the first finding needs. `WriteJSON` and `Close` are represented by the set of connections whose send fails.
- The pair-summary listing (`/api/pairs`) is handler code and is left out.

=== FILE: bootstrap.dfy ===
/**
  GenerateInitialCandleData: fills a pair's history with 288 five-minute
  candles covering the 24 hours before the current 5-minute boundary, driven
  by a multiplicative random walk that starts at 95% of the pair's last price.

  The service's named constants appear here as literals: the walk step is
  -2% .. +2% of the base, open and close are the base times 0.995 + 0.01·u,
  high is the larger of them times 1 + 0.005·u, low the smaller times
  0.995 − 0.005·u, and the volume is 50 + 150·u.
 */
module Bootstrap {
  import opened Models
  import opened Entropy

  /** The six draws one generated candle consumes, in the order they are made. */
  datatype CandleDraws = CandleDraws(walk: real, open: real, close: real, high: real, low: real, volume: real)

  predicate UnitDraws(d: CandleDraws) {
    IsUnit(d.walk) && IsUnit(d.open) && IsUnit(d.close) && IsUnit(d.high) && IsUnit(d.low) && IsUnit(d.volume)
  }

  predicate AllUnitDraws(ds: seq<CandleDraws>) {
    forall i :: 0 <= i < |ds| ==> UnitDraws(ds[i])
  }

  /** First second of the history: the 5-minute floor of `nowSec`, minus a day. */
  function StartSecond(nowSec: int): (s: int)
    ensures s + 86400 <= nowSec < s + 86400 + 300
    ensures s % 300 == 0
  {
    FloorTo(nowSec, 300) - 86400
  }

  /** Millisecond timestamp of the `i`-th historical candle. */
  function CandleTime(start: int, i: int): (t: int)
    ensures t % 1000 == 0 && t / 1000 == start + 300 * i
    ensures start % 300 == 0 ==> t % 300000 == 0
  {
    (start + 300 * i) * 1000
  }

  /** One step of the random walk: a change of -2% to +2% of the base. */
  function WalkStep(base: real, u: real): (b: real)
    ensures base > 0.0 && IsUnit(u) ==> base * 0.98 <= b < base * 1.02
  {
    MulUnit(base, u);
    base + base * (u * 0.04 - 0.02)
  }

  /** An open or close price: the base scaled by a factor in [0.995, 1.005). */
  function Jitter(base: real, u: real): (r: real)
    ensures base > 0.0 && IsUnit(u) ==> base * 0.995 <= r < base * 1.005
  {
    MulUnit(base, u);
    base * (0.995 + u * 0.01)
  }

  /** The candle around a drawn open and close: high raised from the larger of
      the two by up to 0.5%, low lowered from the smaller into (0.99, 0.995] of it. */
  function ShapeCandle(time: int, open: real, close: real, d: CandleDraws): (c: Candle)
    ensures c.time == time && c.open == open && c.close == close
    ensures IsUnit(d.volume) ==> 50.0 <= c.volume < 200.0
  {
    var high := Max(open, close) * (1.0 + d.high * 0.005);
    var low := Min(open, close) * (0.995 - d.low * 0.005);
    Candle(time, open, high, low, close, 50.0 + d.volume * 150.0)
  }

  /** With positive open and close and unit draws the candle is sound and its
      volume lies in [50, 200). */
  lemma ShapeCandleSound(time: int, open: real, close: real, d: CandleDraws)
    ensures open > 0.0 && close > 0.0 && UnitDraws(d) ==>
      && Sound(ShapeCandle(time, open, close, d))
      && 50.0 <= ShapeCandle(time, open, close, d).volume < 200.0
  {
    if open > 0.0 && close > 0.0 && UnitDraws(d) {
      var c := ShapeCandle(time, open, close, d);
      Raised(Max(open, close), d.high, c.high);
      Lowered(Min(open, close), d.low, c.low);
    }
  }

  lemma Raised(m: real, u: real, high: real)
    requires m > 0.0 && IsUnit(u) && high == m * (1.0 + u * 0.005)
    ensures m <= high
  {
    MulUnit(m, u);
  }

  lemma Lowered(m: real, u: real, low: real)
    requires m > 0.0 && IsUnit(u) && low == m * (0.995 - u * 0.005)
    ensures 0.0 < low < m
  {
    MulUnit(m, u);
    assert low == m * 0.995 - (m * u) * 0.005;
  }

  /** The candle drawn around `base` with the draws `d`. */
  function DrawCandle(time: int, base: real, d: CandleDraws): (c: Candle)
    ensures c.time == time
    ensures base > 0.0 && UnitDraws(d) ==>
      && Sound(c)
      && base * 0.995 <= c.open < base * 1.005
      && base * 0.995 <= c.close < base * 1.005
      && 50.0 <= c.volume < 200.0
  {
    var open := Jitter(base, d.open);
    var close := Jitter(base, d.close);
    ShapeCandleSound(time, open, close, d);
    ShapeCandle(time, open, close, d)
  }

  /** The candles for positions i, i+1, ... of the history, one per draw tuple,
      each drawn around the base after one more walk step. */
  function Generate(start: int, i: nat, base: real, ds: seq<CandleDraws>): (h: seq<Candle>)
    ensures |h| == |ds|
    ensures forall k :: 0 <= k < |h| ==> h[k].time == CandleTime(start, i + k)
    ensures base > 0.0 && AllUnitDraws(ds) ==>
      forall k :: 0 <= k < |h| ==> Sound(h[k]) && 50.0 <= h[k].volume < 200.0
    decreases |ds|
  {
    if |ds| == 0 then []
    else
      var b := WalkStep(base, ds[0].walk);
      [DrawCandle(CandleTime(start, i), b, ds[0])] + Generate(start, i + 1, b, ds[1..])
  }

  /** Candle times that step by exactly one 5-minute bucket strictly increase. */
  lemma EvenlySpacedIsStrictlyIncreasing(h: seq<Candle>, start: int)
    requires forall k :: 0 <= k < |h| ==> h[k].time == CandleTime(start, k)
    ensures StrictlyIncreasing(h)
  {
    forall i, j | 0 <= i < j < |h|
      ensures h[i].time < h[j].time
    {
      assert h[j].time - h[i].time == 300000 * (j - i);
    }
  }

  /** GenerateInitialCandleData on `p` at clock `nowSec` with the given draws. */
  function GenerateInitialCandleData(p: TradingPair, nowSec: int, ds: seq<CandleDraws>): (q: TradingPair)
    requires |ds| == MaxCandleCount
    ensures |q.history| == MaxCandleCount
    ensures forall k :: 0 <= k < |q.history| ==> q.history[k].time == CandleTime(StartSecond(nowSec), k)
    ensures StrictlyIncreasing(q.history)
    ensures q.lastCandle == Last(q.history) && q.lastPrice == q.lastCandle.close
    ensures q.symbol == p.symbol && q.priceChange == p.priceChange && q.subscribers == p.subscribers
    ensures p.lastPrice > 0.0 && AllUnitDraws(ds) ==>
      && AllSound(q.history)
      && q.lastPrice > 0.0
      && forall k :: 0 <= k < |q.history| ==> 50.0 <= q.history[k].volume < 200.0
  {
    var start := StartSecond(nowSec);
    var h := Generate(start, 0, p.lastPrice * 0.95, ds);
    EvenlySpacedIsStrictlyIncreasing(h, start);
    if |h| > 0 then p.(history := h, lastCandle := Last(h), lastPrice := Last(h).close)
    else p.(history := h)
  }

  /** Consecutive historical candles are exactly 300000 ms apart, and the
      newest one opens 5 minutes before the current 5-minute boundary. */
  lemma BootstrapSpacing(p: TradingPair, nowSec: int, ds: seq<CandleDraws>)
    requires |ds| == MaxCandleCount
    ensures var h := GenerateInitialCandleData(p, nowSec, ds).history;
      && (forall k :: 0 < k < |h| ==> h[k].time == h[k - 1].time + 300000)
      && Last(h).time == (FloorTo(nowSec, 300) - 300) * 1000
  {
  }
}

=== FILE: entropy.dfy ===
/**
  The service's only source of randomness, secureFloat64: a uniform integer
  below 2^53 from the operating system's entropy source, scaled into [0, 1),
  with 0.5 substituted when the source fails. The read itself is a parameter.
 */
module Entropy {

  /** 2^53, the exclusive bound of the integer draw. */
  const MaxRandom: int := 0x20_0000_0000_0000
  /** Substituted when the entropy source reports an error. */
  const DefaultRandomValue: real := 0.5

  /** What the entropy source produced: an integer in [0, 2^53), or an error. */
  datatype EntropyRead = Read(n: int) | SourceFailed

  /** A random draw as every step of the simulation consumes it. */
  predicate IsUnit(u: real) {
    0.0 <= u < 1.0
  }

  function SecureFloat64(e: EntropyRead): (r: real)
    requires e.Read? ==> 0 <= e.n < MaxRandom
    ensures IsUnit(r)
    ensures e.SourceFailed? ==> r == DefaultRandomValue
    ensures e.Read? ==> r * MaxRandom as real == e.n as real
  {
    match e
    case SourceFailed => DefaultRandomValue
    case Read(n) => n as real / MaxRandom as real
  }

  /** A larger read gives a larger draw: the scaling keeps the order of the
      integers, so the draw is as evenly spread over [0, 1) as the read is
      over [0, 2^53). */
  lemma SecureFloat64Monotone(m: int, n: int)
    requires 0 <= m < n < MaxRandom
    ensures SecureFloat64(Read(m)) < SecureFloat64(Read(n))
    ensures SecureFloat64(Read(n)) - SecureFloat64(Read(m)) == (n - m) as real / MaxRandom as real
  {
  }

  /** The fallback for a failed source is itself an ordinary draw, the one
      for the read 2^52: a caller cannot tell a failure from that read. */
  lemma FallbackIsOrdinaryDraw()
    ensures SecureFloat64(SourceFailed) == SecureFloat64(Read(MaxRandom / 2))
  {
  }

  /** Distinct reads give distinct draws. */
  lemma SecureFloat64Injective(m: int, n: int)
    requires 0 <= m < MaxRandom && 0 <= n < MaxRandom
    requires SecureFloat64(Read(m)) == SecureFloat64(Read(n))
    ensures m == n
  {
    var r := SecureFloat64(Read(m));
    assert m as real == r * MaxRandom as real == n as real;
  }
}

=== FILE: locking.dfy ===
/**
  The lock requests of the backend copy's GetCandleData. It takes the pair's
  read lock, and when the history is empty calls GenerateInitialCandleData,
  which asks for the write lock of the same mutex while the read lock is
  still held (released only by a deferred call after the function returns).
  A sync.RWMutex grants the write lock only once every read lock is
  released, so that request can never be granted.

  Only held locks are modelled. A sync.RWMutex also holds back new read
  locks while a write lock is pending; that queue is left out, and no
  property here depends on it.
 */
module Locking {
  import opened Wrappers

  /** A reader/writer mutex: how many read locks are held, and whether the write lock is. */
  datatype RWMutex = RWMutex(readers: nat, writer: bool)

  const Unlocked: RWMutex := RWMutex(0, false)

  /** RLock: granted unless a writer holds the lock; None means the caller
      waits. A pending writer, which also makes a sync.RWMutex hold back new
      readers, is not modelled. */
  function RLock(m: RWMutex): (r: Option<RWMutex>)
    ensures r.Some? <==> !m.writer
    ensures r.Some? ==> r.value.readers == m.readers + 1 && !r.value.writer
  {
    if m.writer then None else Some(m.(readers := m.readers + 1))
  }

  /** Lock: granted only when no reader and no writer holds the lock. */
  function Lock(m: RWMutex): (r: Option<RWMutex>)
    ensures r.Some? <==> m.readers == 0 && !m.writer
    ensures r.Some? ==> r.value.writer && r.value.readers == 0
  {
    if m.readers == 0 && !m.writer then Some(m.(writer := true)) else None
  }

  function RUnlock(m: RWMutex): (r: RWMutex)
    requires m.readers > 0
    ensures r.readers + 1 == m.readers && r.writer == m.writer
  {
    m.(readers := m.readers - 1)
  }

  function Unlock(m: RWMutex): (r: RWMutex)
    requires m.writer
    ensures !r.writer && r.readers == m.readers
  {
    m.(writer := false)
  }

  /** The backend GetCandleData's requests as written, for a known symbol,
      starting from mutex state `m`: the final state, or None when a request
      waits. A wait on another goroutine's write lock ends when that lock is
      released; a wait on the caller's own read lock never does. */
  function GetCandleDataLocksAsWritten(m: RWMutex, historyEmpty: bool): (r: Option<RWMutex>)
    ensures historyEmpty ==> r == None
    ensures !historyEmpty && !m.writer ==> r == Some(m)
  {
    match RLock(m)
    case None => None
    case Some(held) =>
      if historyEmpty then
        match Lock(held)
        case None => None
        case Some(_) => assert false; None
      else
        Some(RUnlock(held))
  }

  /** The same requests with the regeneration done under the write lock
      before the read lock is taken for the copy. */
  function GetCandleDataLocks(m: RWMutex, historyEmpty: bool): (r: Option<RWMutex>)
    ensures m == Unlocked ==> r == Some(Unlocked)
    ensures !historyEmpty && !m.writer ==> r == Some(m)
  {
    var before := if historyEmpty then (match Lock(m) case None => None case Some(w) => Some(Unlock(w))) else Some(m);
    match before
    case None => None
    case Some(m') =>
      match RLock(m')
      case None => None
      case Some(held) => Some(RUnlock(held))
  }

  /** As written, a request on a pair with empty history blocks even when
      nobody else holds the lock; reordered, it completes. */
  lemma LazyRegenerationDeadlocks()
    ensures GetCandleDataLocksAsWritten(Unlocked, true) == None
    ensures GetCandleDataLocks(Unlocked, true) == Some(Unlocked)
  {
  }
}

=== FILE: models.dfy ===
/**
  The records of the trading service: an OHLCV candle, a trading pair with
  its closed-candle history, and the constants both service copies share.
  Prices and volumes are reals; times are integers (epoch seconds for the
  clock, epoch milliseconds inside a candle).
 */
module Models {

  /** Closed history never holds more than this many candles (24 h of 5-minute candles). */
  const MaxCandleCount: nat := 288

  /** An opaque subscriber endpoint (a WebSocket connection handle). */
  datatype Conn = Conn(id: nat)

  datatype Candle = Candle(time: int, open: real, high: real, low: real, close: real, volume: real)

  datatype TradingPair = TradingPair(
    symbol: string,
    lastPrice: real,
    priceChange: real,
    history: seq<Candle>,
    lastCandle: Candle,
    subscribers: set<Conn>
  )

  /** The two copies of the data service differ in a few constants and branches. */
  datatype Copy = Internal | Backend

  function Max(a: real, b: real): real { if a >= b then a else b }
  function Min(a: real, b: real): real { if a <= b then a else b }

  /** low <= min(open, close) <= max(open, close) <= high */
  predicate Ordered(c: Candle) {
    c.low <= c.open <= c.high && c.low <= c.close <= c.high
  }

  /** An ordered candle with positive prices and a non-negative volume. */
  predicate Sound(c: Candle) {
    Ordered(c) && 0.0 < c.low && 0.0 <= c.volume
  }

  predicate AllSound(h: seq<Candle>) {
    forall i :: 0 <= i < |h| ==> Sound(h[i])
  }

  /** Bucket timestamps strictly increase from oldest to newest. */
  predicate StrictlyIncreasing(h: seq<Candle>) {
    forall i, j :: 0 <= i < j < |h| ==> h[i].time < h[j].time
  }

  function Last(h: seq<Candle>): Candle
    requires |h| > 0
  {
    h[|h| - 1]
  }

  /** Start of the `unit`-second bucket holding `t` (a floor, also for negative `t`). */
  function FloorTo(t: int, unit: nat): (b: int)
    requires unit > 0
    ensures b <= t < b + unit
    ensures b == (t / unit) * unit
  {
    t - t % unit
  }

  /** A positive quantity times a draw in [0, 1) lies in [0, x). */
  lemma MulUnit(x: real, u: real)
    ensures x > 0.0 && 0.0 <= u < 1.0 ==> 0.0 <= x * u < x
  {
  }

  /** A candle whose four prices all equal `price`. */
  function Flat(time: int, price: real, volume: real): (c: Candle)
    ensures Ordered(c)
    ensures c.open == c.high == c.low == c.close == price
    ensures c.time == time && c.volume == volume
    ensures price > 0.0 && volume >= 0.0 ==> Sound(c)
  {
    Candle(time, price, price, price, price, volume)
  }

  /** A pair as NewTradingPair creates it: no history, no change, no subscribers. */
  function NewTradingPair(symbol: string, initialPrice: real): (p: TradingPair)
    ensures p.symbol == symbol && p.lastPrice == initialPrice
    ensures p.priceChange == 0.0 && p.history == [] && p.subscribers == {}
  {
    TradingPair(symbol, initialPrice, 0.0, [], Candle(0, 0.0, 0.0, 0.0, 0.0, 0.0), {})
  }

  /** Dropping older entries keeps a history strictly increasing. */
  lemma SuffixStrictlyIncreasing(h: seq<Candle>, k: nat)
    requires k <= |h|
    ensures StrictlyIncreasing(h) ==> StrictlyIncreasing(h[k..])
  {
    if StrictlyIncreasing(h) {
      forall i, j | 0 <= i < j < |h| - k
        ensures h[k..][i].time < h[k..][j].time
      {
        assert h[k..][i] == h[k + i] && h[k..][j] == h[k + j];
      }
    }
  }

  /** Appending a candle newer than the newest entry keeps a history strictly increasing. */
  lemma AppendStrictlyIncreasing(h: seq<Candle>, c: Candle)
    requires h == [] || c.time > Last(h).time
    ensures StrictlyIncreasing(h) ==> StrictlyIncreasing(h + [c])
  {
    if StrictlyIncreasing(h) {
      var g := h + [c];
      forall i, j | 0 <= i < j < |g|
        ensures g[i].time < g[j].time
      {
        assert g[i] == h[i];
        if j < |h| {
          assert g[j] == h[j];
        } else {
          assert g[j] == c;
          if i < |h| - 1 {
            assert h[i].time < Last(h).time;
          }
        }
      }
    }
  }

  /** Appending a sound candle to a sound history gives a sound history. */
  lemma AppendSound(h: seq<Candle>, c: Candle)
    ensures AllSound(h) && Sound(c) ==> AllSound(h + [c])
  {
    if AllSound(h) && Sound(c) {
      var g := h + [c];
      forall i | 0 <= i < |g|
        ensures Sound(g[i])
      {
        if i < |h| { assert g[i] == h[i]; } else { assert g[i] == c; }
      }
    }
  }

  /** Every suffix of a sound history is sound. */
  lemma SuffixSound(h: seq<Candle>, k: nat)
    requires k <= |h|
    ensures AllSound(h) ==> AllSound(h[k..])
  {
    if AllSound(h) {
      forall i | 0 <= i < |h| - k
        ensures Sound(h[k..][i])
      {
        assert h[k..][i] == h[k + i];
      }
    }
  }
}

=== FILE: registry.dfy ===
/**
  The DataService's map from symbol to trading pair and the operations
  handlers call on it: initialisation with the fixed seed prices, history
  retrieval (in the internal copy's and the backend copy's variants),
  subscribe and unsubscribe.
 */
module Registry {
  import opened Wrappers
  import opened Models
  import opened Bootstrap
  import opened Subscribers

  type Pairs = map<string, TradingPair>

  /** ErrTradingPairNotFound, or any other error carrying only its text. */
  datatype Error = TradingPairNotFound | Message(text: string)

  /** The fixed set of pairs and their seed prices. */
  const SeedPrices: map<string, real> :=
    map["BTCUSDT" := 95000.0, "ETHUSDT" := 3500.0, "SOLUSDT" := 180.0, "BNBUSDT" := 600.0, "XRPUSDT" := 0.55]

  /** A new pair at its seed price, bootstrapped: a full day of history
      ending at its last price, no change and no subscribers yet. */
  function SeededPair(symbol: string, price: real, nowSec: int, ds: seq<CandleDraws>): (p: TradingPair)
    requires |ds| == MaxCandleCount
    ensures p.symbol == symbol && p.priceChange == 0.0 && p.subscribers == {}
    ensures |p.history| == MaxCandleCount && StrictlyIncreasing(p.history)
    ensures p.lastCandle == Last(p.history) && p.lastPrice == p.lastCandle.close
    ensures price > 0.0 && AllUnitDraws(ds) ==> AllSound(p.history) && p.lastPrice > 0.0
  {
    GenerateInitialCandleData(NewTradingPair(symbol, price), nowSec, ds)
  }

  /** InitializeTradingPairs without its goroutines: every seeded pair,
      bootstrapped with its own draws. */
  function InitializeTradingPairs(nowSec: int, draws: map<string, seq<CandleDraws>>): (reg: Pairs)
    requires forall s :: s in SeedPrices ==> s in draws && |draws[s]| == MaxCandleCount
    ensures reg.Keys == SeedPrices.Keys
    ensures forall s :: s in reg ==> reg[s] == SeededPair(s, SeedPrices[s], nowSec, draws[s])
  {
    map s | s in SeedPrices :: SeededPair(s, SeedPrices[s], nowSec, draws[s])
  }

  /** Every seed price is positive. */
  lemma SeedPricesPositive()
    ensures forall s :: s in SeedPrices ==> SeedPrices[s] > 0.0
  {
  }

  /** After initialisation every pair has a full day of strictly ordered,
      sound candles, a positive last price equal to its newest close, no
      change and no subscribers: the state the simulation loops start from. */
  lemma InitializedPairsSound(nowSec: int, draws: map<string, seq<CandleDraws>>)
    requires forall s :: s in SeedPrices ==> s in draws && |draws[s]| == MaxCandleCount
    requires forall s :: s in draws ==> AllUnitDraws(draws[s])
    ensures var reg := InitializeTradingPairs(nowSec, draws);
      forall s :: s in reg ==>
        && reg[s].symbol == s
        && |reg[s].history| == MaxCandleCount
        && StrictlyIncreasing(reg[s].history)
        && AllSound(reg[s].history)
        && reg[s].lastCandle == Last(reg[s].history)
        && reg[s].lastPrice == reg[s].lastCandle.close > 0.0
        && reg[s].priceChange == 0.0
        && reg[s].subscribers == {}
  {
    var reg := InitializeTradingPairs(nowSec, draws);
    SeedPricesPositive();
    forall s | s in reg
      ensures reg[s] == SeededPair(s, SeedPrices[s], nowSec, draws[s])
      ensures SeedPrices[s] > 0.0 && AllUnitDraws(draws[s])
    {
    }
  }

  /** AddSubscriber: subscribes `conn` to a known pair and touches nothing else. */
  function AddSubscriber(reg: Pairs, symbol: string, conn: Conn): (r: Result<Pairs, Error>)
    ensures r.Failure? <==> symbol !in reg
    ensures r.Failure? ==> r.error == TradingPairNotFound
    ensures r.Success? ==>
      && r.value.Keys == reg.Keys
      && conn in r.value[symbol].subscribers
      && r.value[symbol].subscribers - {conn} == reg[symbol].subscribers - {conn}
      && r.value[symbol].(subscribers := reg[symbol].subscribers) == reg[symbol]
      && forall s :: s in reg && s != symbol ==> r.value[s] == reg[s]
  {
    if symbol !in reg then Failure(TradingPairNotFound)
    else Success(reg[symbol := Subscribe(reg[symbol], conn)])
  }

  /** RemoveSubscriber: unsubscribes `conn` from a known pair and touches nothing else. */
  function RemoveSubscriber(reg: Pairs, symbol: string, conn: Conn): (r: Result<Pairs, Error>)
    ensures r.Failure? <==> symbol !in reg
    ensures r.Failure? ==> r.error == TradingPairNotFound
    ensures r.Success? ==>
      && r.value.Keys == reg.Keys
      && conn !in r.value[symbol].subscribers
      && r.value[symbol].subscribers + {conn} == reg[symbol].subscribers + {conn}
      && r.value[symbol].(subscribers := reg[symbol].subscribers) == reg[symbol]
      && forall s :: s in reg && s != symbol ==> r.value[s] == reg[s]
  {
    if symbol !in reg then Failure(TradingPairNotFound)
    else Success(reg[symbol := Unsubscribe(reg[symbol], conn)])
  }

  /** Subscribing twice is subscribing once; unsubscribing a non-member is a no-op. */
  lemma SubscriptionIdempotent(reg: Pairs, symbol: string, conn: Conn)
    requires symbol in reg
    ensures AddSubscriber(AddSubscriber(reg, symbol, conn).value, symbol, conn) == AddSubscriber(reg, symbol, conn)
    ensures RemoveSubscriber(RemoveSubscriber(reg, symbol, conn).value, symbol, conn) == RemoveSubscriber(reg, symbol, conn)
    ensures conn !in reg[symbol].subscribers ==> RemoveSubscriber(reg, symbol, conn) == Success(reg)
  {
    SubscribeIdempotent(reg[symbol], conn);
    UnsubscribeIdempotent(reg[symbol], conn);
    assert reg[symbol := Subscribe(reg[symbol], conn)][symbol := Subscribe(Subscribe(reg[symbol], conn), conn)]
        == reg[symbol := Subscribe(reg[symbol], conn)];
    assert reg[symbol := Unsubscribe(reg[symbol], conn)][symbol := Unsubscribe(Unsubscribe(reg[symbol], conn), conn)]
        == reg[symbol := Unsubscribe(reg[symbol], conn)];
    if conn !in reg[symbol].subscribers {
      assert reg[symbol := reg[symbol]] == reg;
    }
  }

  /** Removing a connection that was just added restores the registry. */
  lemma RemoveUndoesAdd(reg: Pairs, symbol: string, conn: Conn)
    requires symbol in reg && conn !in reg[symbol].subscribers
    ensures RemoveSubscriber(AddSubscriber(reg, symbol, conn).value, symbol, conn) == Success(reg)
  {
    UnsubscribeUndoesSubscribe(reg[symbol], conn);
    assert reg[symbol := Subscribe(reg[symbol], conn)][symbol := reg[symbol]] == reg;
  }

  /** GetCandleData of the internal copy as written: an unknown symbol yields a
      fresh error value rather than ErrTradingPairNotFound. */
  function GetCandleDataAsWritten(reg: Pairs, symbol: string): (r: Result<seq<Candle>, Error>)
    ensures r.Success? <==> symbol in reg
    ensures r.Success? ==> r.value == reg[symbol].history
    ensures r.Failure? ==> r.error == Message("trading pair not found")
  {
    if symbol !in reg then Failure(Message("trading pair not found"))
    else Success(reg[symbol].history)
  }

  /** GetCandleData of the internal copy, reporting an unknown symbol with
      ErrTradingPairNotFound as its other operations do. */
  function GetCandleData(reg: Pairs, symbol: string): (r: Result<seq<Candle>, Error>)
    ensures r.Success? <==> symbol in reg
    ensures r.Success? ==> r.value == reg[symbol].history
    ensures r.Failure? ==> r.error == TradingPairNotFound
  {
    if symbol !in reg then Failure(TradingPairNotFound)
    else Success(reg[symbol].history)
  }

  /** GetCandleData of the backend copy: an unknown symbol is
      ErrTradingPairNotFound; an empty history is regenerated first (the
      registry changes), so a known symbol always yields 288 candles or its
      current history. */
  function BackendGetCandleData(reg: Pairs, symbol: string, nowSec: int, ds: seq<CandleDraws>)
    : (r: Result<(seq<Candle>, Pairs), Error>)
    requires |ds| == MaxCandleCount
    ensures r.Failure? <==> symbol !in reg
    ensures r.Failure? ==> r.error == TradingPairNotFound
    ensures r.Success? ==>
      && r.value.1.Keys == reg.Keys
      && r.value.0 == r.value.1[symbol].history
      && (reg[symbol].history != [] ==> r.value.1 == reg)
      && (reg[symbol].history == [] ==>
            && |r.value.0| == MaxCandleCount
            && StrictlyIncreasing(r.value.0)
            && r.value.1 == reg[symbol := GenerateInitialCandleData(reg[symbol], nowSec, ds)])
  {
    if symbol !in reg then Failure(TradingPairNotFound)
    else
      var p := reg[symbol];
      var reg' := if |p.history| == 0 then reg[symbol := GenerateInitialCandleData(p, nowSec, ds)] else reg;
      Success((reg'[symbol].history, reg'))
  }

  /** On a pair with history the backend variant serves exactly what the
      internal one does and leaves the registry alone; and a regeneration
      happens at most once: a second request after it changes nothing and
      returns the same candles. */
  lemma BackendAgreesAndRegeneratesOnce(reg: Pairs, symbol: string, t0: int, ds0: seq<CandleDraws>, t1: int, ds1: seq<CandleDraws>)
    requires |ds0| == MaxCandleCount && |ds1| == MaxCandleCount
    requires symbol in reg
    ensures reg[symbol].history != [] ==>
      BackendGetCandleData(reg, symbol, t0, ds0) == Success((GetCandleData(reg, symbol).value, reg))
    ensures var first := BackendGetCandleData(reg, symbol, t0, ds0).value;
      BackendGetCandleData(first.1, symbol, t1, ds1) == Success(first)
  {
    var first := BackendGetCandleData(reg, symbol, t0, ds0).value;
    assert |first.1[symbol].history| > 0;
  }

  /** The HTTP status the candles handler answers a GetCandleData result with. */
  function CandlesStatus(r: Result<seq<Candle>, Error>): (status: int)
    ensures status == 200 <==> r.Success?
    ensures status == 404 <==> r == Failure(TradingPairNotFound)
    ensures r.Failure? && r.error != TradingPairNotFound ==> status == 500
  {
    match r
    case Success(_) => 200
    case Failure(TradingPairNotFound) => 404
    case Failure(_) => 500
  }

  /** As written, the internal copy answers an unknown symbol with 500. */
  lemma AsWrittenUnknownSymbolIs500(reg: Pairs, symbol: string)
    requires symbol !in reg
    ensures CandlesStatus(GetCandleDataAsWritten(reg, symbol)) == 500
  {
  }

  /** With the sentinel error, an unknown symbol is a 404 in both copies, and
      known symbols are served exactly as before. */
  lemma UnknownSymbolIs404(reg: Pairs, symbol: string, nowSec: int, ds: seq<CandleDraws>)
    requires |ds| == MaxCandleCount
    ensures symbol !in reg ==> CandlesStatus(GetCandleData(reg, symbol)) == 404
    ensures symbol !in reg ==> BackendGetCandleData(reg, symbol, nowSec, ds) == Failure(TradingPairNotFound)
    ensures symbol in reg ==> GetCandleData(reg, symbol) == GetCandleDataAsWritten(reg, symbol)
  {
  }
}

=== FILE: simulation.dfy ===
/**
  The per-pair simulation loop of SimulateTradingData, one atomic step at a
  time: its setup, the 500 ms price tick and the 1 s candle tick. The loop's
  local "current candle" is carried next to the pair in an `Engine`. Each
  tick's random draws and the clock reading are parameters.
 */
module Simulation {
  import opened Models
  import opened Entropy
  import opened Bootstrap
  import opened Subscribers

  /** A pair together with the candle its simulation loop is currently building. */
  datatype Engine = Engine(pair: TradingPair, current: Candle)

  /** The invariant every step of the loop keeps. */
  predicate Inv(e: Engine) {
    var h := e.pair.history;
    && |h| <= MaxCandleCount
    && StrictlyIncreasing(h)
    && AllSound(h)
    && Sound(e.current)
    && (|h| > 0 ==> Last(h).time <= e.current.time)
    && e.pair.lastCandle == e.current
    && e.current.close == e.pair.lastPrice
  }

  /** Millisecond start of the 10-second live bucket holding `nowSec`. */
  function LiveBucket(nowSec: int): (t: int)
    ensures nowSec * 1000 - 9000 <= t <= nowSec * 1000
    ensures t % 10000 == 0
  {
    FloorTo(nowSec, 10) * 1000
  }

  /** The most recent `n` entries of `h` (all of them when there are fewer). */
  function KeepLast(h: seq<Candle>, n: nat): (r: seq<Candle>)
    ensures |r| == if |h| > n then n else |h|
    ensures r == h[|h| - |r|..]
  {
    if |h| > n then h[|h| - n..] else h
  }

  /** SimulateTradingData's setup: bootstrap an empty history, then start
      from its newest candle (a flat candle at the live bucket only when no
      history exists at all). */
  function StartSimulation(p: TradingPair, nowSec: int, ds: seq<CandleDraws>): (e: Engine)
    requires |ds| == MaxCandleCount
    ensures |e.pair.history| > 0 && e.current == Last(e.pair.history)
    ensures p.history != [] ==> e.pair == p
    ensures p.history == [] ==> e.pair == GenerateInitialCandleData(p, nowSec, ds)
  {
    var q := if |p.history| == 0 then GenerateInitialCandleData(p, nowSec, ds) else p;
    var c := if |q.history| > 0 then Last(q.history) else Flat(LiveBucket(nowSec), q.lastPrice, 50.0);
    Engine(q, c)
  }

  /** A fresh pair with a positive seed price starts in a state satisfying
      the invariant, whether the simulation loop bootstraps its history or
      InitializeTradingPairs already did. */
  lemma StartEstablishesInv(p: TradingPair, t0: int, ds0: seq<CandleDraws>, t1: int, ds1: seq<CandleDraws>)
    requires p.history == [] && p.lastPrice > 0.0
    requires |ds0| == MaxCandleCount && AllUnitDraws(ds0) && |ds1| == MaxCandleCount
    ensures Inv(StartSimulation(p, t0, ds0))
    ensures Inv(StartSimulation(GenerateInitialCandleData(p, t0, ds0), t1, ds1))
  {
    var q := GenerateInitialCandleData(p, t0, ds0);
    assert Sound(q.history[|q.history| - 1]);
  }

  /** The price perturbation: a change of -0.2% to +0.2%. */
  function MovePrice(price: real, u: real): (r: real)
    ensures price > 0.0 && IsUnit(u) ==> 0.0 < price * 0.998 <= r < price * 1.002
  {
    MulUnit(price, u);
    price + price * (u * 0.004 - 0.002)
  }

  /** Volume added by one price tick: up to 20 in the internal copy, up to 5 in the backend copy. */
  function VolumeIncrement(copy: Copy, u: real): (v: real)
    ensures IsUnit(u) ==> 0.0 <= v < (if copy == Internal then 20.0 else 5.0)
  {
    match copy
    case Internal => u * 20.0
    case Backend => u * 5.0
  }

  /** Percent change of `price` against `baseOpen`. */
  function PercentChange(price: real, baseOpen: real): (pc: real)
    requires baseOpen != 0.0
    ensures price == baseOpen * (1.0 + pc / 100.0)
  {
    var pc := (price / baseOpen - 1.0) * 100.0;
    assert 1.0 + pc / 100.0 == price / baseOpen;
    pc
  }

  /** One price tick: move the price, widen the current candle's envelope to
      include it, close the candle at it, add volume, publish the candle as
      the pair's last candle and, with history present, recompute the
      percent change against the oldest retained candle's open. */
  function PriceTick(e: Engine, copy: Copy, move: real, volume: real): (r: Engine)
    requires e.pair.history != [] ==> e.pair.history[0].open != 0.0
    ensures var p := r.pair.lastPrice;
      && r.current.high >= e.current.high && r.current.high >= p
      && (r.current.high == e.current.high || r.current.high == p)
      && r.current.low <= e.current.low && r.current.low <= p
      && (r.current.low == e.current.low || r.current.low == p)
      && r.current.close == p
    ensures r.current.time == e.current.time && r.current.open == e.current.open
    ensures IsUnit(volume) ==> e.current.volume <= r.current.volume
    ensures e.pair.lastPrice > 0.0 && IsUnit(move) ==>
      0.0 < e.pair.lastPrice * 0.998 <= r.pair.lastPrice < e.pair.lastPrice * 1.002
    ensures r.pair.lastCandle == r.current
    ensures r.pair.history == e.pair.history
    ensures r.pair.symbol == e.pair.symbol && r.pair.subscribers == e.pair.subscribers
    ensures e.pair.history != [] ==>
      r.pair.lastPrice == e.pair.history[0].open * (1.0 + r.pair.priceChange / 100.0)
    ensures e.pair.history == [] ==> r.pair.priceChange == e.pair.priceChange
    ensures Ordered(e.current) ==> Ordered(r.current)
  {
    var p := MovePrice(e.pair.lastPrice, move);
    var c := e.current;
    var high := if p > c.high then p else c.high;
    var low := if p < c.low then p else c.low;
    var c' := c.(high := high, low := low, close := p, volume := c.volume + VolumeIncrement(copy, volume));
    var change := if |e.pair.history| > 0 then PercentChange(p, e.pair.history[0].open) else e.pair.priceChange;
    Engine(e.pair.(lastPrice := p, lastCandle := c', priceChange := change), c')
  }

  /** The two copies differ only in how much volume a price tick adds. */
  lemma PriceTickVolumeByCopy(e: Engine, move: real, volume: real)
    requires e.pair.history != [] ==> e.pair.history[0].open != 0.0
    ensures PriceTick(e, Internal, move, volume).current.volume == e.current.volume + volume * 20.0
    ensures PriceTick(e, Backend, move, volume).current.volume == e.current.volume + volume * 5.0
    ensures PriceTick(e, Internal, move, volume).current.(volume := 0.0)
         == PriceTick(e, Backend, move, volume).current.(volume := 0.0)
    ensures PriceTick(e, Internal, move, volume).pair.(lastCandle := e.current)
         == PriceTick(e, Backend, move, volume).pair.(lastCandle := e.current)
  {
  }

  /** A history that grows by `c` when the guard admits it, trimmed to the newest 288. */
  function CloseCandle(h: seq<Candle>, c: Candle): (r: seq<Candle>)
    ensures (h == [] || c.time > Last(h).time) ==> r == KeepLast(h + [c], MaxCandleCount) && Last(r) == c
    ensures !(h == [] || c.time > Last(h).time) ==> r == h
    ensures |h| <= MaxCandleCount ==> |r| <= MaxCandleCount
    ensures StrictlyIncreasing(h) ==> StrictlyIncreasing(r)
  {
    if h == [] || c.time > Last(h).time then
      var g := h + [c];
      var r := KeepLast(g, MaxCandleCount);
      AppendStrictlyIncreasing(h, c);
      SuffixStrictlyIncreasing(g, |g| - |r|);
      assert Last(r) == g[|g| - 1] == c;
      r
    else
      h
  }

  /** One candle tick at clock `nowSec`: when the 10-second bucket is newer
      than the current candle, close the current candle into history (only
      if it is newer than the newest entry) and open a flat candle at the
      last price. */
  function CandleTick(e: Engine, nowSec: int, volume: real): (r: Engine)
    ensures LiveBucket(nowSec) <= e.current.time ==> r == e
    ensures LiveBucket(nowSec) > e.current.time ==>
      && r.pair.history == CloseCandle(e.pair.history, e.current)
      && r.current.time == LiveBucket(nowSec)
      && r.current.open == r.current.high == r.current.low == r.current.close == e.pair.lastPrice
      && (IsUnit(volume) ==> 50.0 <= r.current.volume < 70.0)
      && r.pair.lastCandle == r.current
      && r.pair.(history := e.pair.history, lastCandle := e.pair.lastCandle) == e.pair
  {
    var bucket := LiveBucket(nowSec);
    if bucket > e.current.time then
      var c := Flat(bucket, e.pair.lastPrice, 50.0 + volume * 20.0);
      Engine(e.pair.(history := CloseCandle(e.pair.history, e.current), lastCandle := c), c)
    else
      e
  }

  /** Trimming a full history drops exactly its oldest entry. */
  lemma TrimDropsOldest(h: seq<Candle>, c: Candle)
    requires |h| == MaxCandleCount && c.time > Last(h).time
    ensures CloseCandle(h, c) == h[1..] + [c]
  {
    assert (h + [c])[1..] == h[1..] + [c];
  }

  /** A rollover keeps the closed candle, unmodified, as the newest history entry. */
  lemma RolloverKeepsClosedCandle(e: Engine, nowSec: int, volume: real)
    requires LiveBucket(nowSec) > e.current.time
    requires e.pair.history == [] || e.current.time > Last(e.pair.history).time
    ensures var h := CandleTick(e, nowSec, volume).pair.history;
      |h| > 0 && Last(h) == e.current
  {
  }

  /** The candle the loop starts from has the newest history entry's
      timestamp, so a candle tick straight after start-up leaves history as
      it was. */
  lemma FirstRolloverDropsStartCandle(p: TradingPair, t0: int, ds: seq<CandleDraws>, nowSec: int, volume: real)
    requires |ds| == MaxCandleCount
    ensures var e := StartSimulation(p, t0, ds);
      CandleTick(e, nowSec, volume).pair.history == e.pair.history
  {
  }

  lemma CloseCandleSound(h: seq<Candle>, c: Candle)
    requires AllSound(h) && Sound(c)
    ensures AllSound(CloseCandle(h, c))
  {
    if h == [] || c.time > Last(h).time {
      var g := h + [c];
      AppendSound(h, c);
      SuffixSound(g, |g| - |KeepLast(g, MaxCandleCount)|);
    }
  }

  lemma PriceTickPreservesInv(e: Engine, copy: Copy, move: real, volume: real)
    requires Inv(e) && IsUnit(move) && IsUnit(volume)
    ensures e.pair.history != [] ==> e.pair.history[0].open != 0.0
    ensures Inv(PriceTick(e, copy, move, volume))
  {
    if e.pair.history != [] {
      assert Sound(e.pair.history[0]);
    }
  }

  lemma CandleTickPreservesInv(e: Engine, nowSec: int, volume: real)
    requires Inv(e) && IsUnit(volume)
    ensures Inv(CandleTick(e, nowSec, volume))
  {
    var r := CandleTick(e, nowSec, volume);
    if LiveBucket(nowSec) > e.current.time {
      var h := e.pair.history;
      var h' := CloseCandle(h, e.current);
      CloseCandleSound(h, e.current);
      assert r.pair.history == h';
      assert Sound(r.current) by {
        assert e.pair.lastPrice == e.current.close >= e.current.low > 0.0;
      }
      if h == [] || e.current.time > Last(h).time {
        assert Last(h') == e.current;
      } else {
        assert h' == h;
      }
    } else {
      assert r == e;
    }
  }

  /** One step the loop or a client can take on a pair. */
  datatype Step =
    | PriceStep(move: real, volume: real)
    | CandleStep(nowSec: int, volume: real)
    | Join(conn: Conn)
    | Leave(conn: Conn)
    | Push(failed: set<Conn>)

  predicate UnitStep(s: Step) {
    match s
    case PriceStep(move, volume) => IsUnit(move) && IsUnit(volume)
    case CandleStep(_, volume) => IsUnit(volume)
    case _ => true
  }

  /** One step applied to an engine. */
  function Apply(e: Engine, copy: Copy, s: Step): (r: Engine)
    requires Inv(e) && UnitStep(s)
    ensures Inv(r)
    ensures r.pair.symbol == e.pair.symbol
  {
    match s
    case PriceStep(move, volume) =>
      (PriceTickPreservesInv(e, copy, move, volume);
       PriceTick(e, copy, move, volume))
    case CandleStep(nowSec, volume) =>
      (CandleTickPreservesInv(e, nowSec, volume);
       CandleTick(e, nowSec, volume))
    case Join(conn) => Engine(Subscribe(e.pair, conn), e.current)
    case Leave(conn) => Engine(Unsubscribe(e.pair, conn), e.current)
    case Push(failed) => Engine(e.pair.(subscribers := Prune(e.pair.subscribers, failed)), e.current)
  }

  /** Steps on a pair in the order the pair's lock serialises them. */
  function Run(e: Engine, copy: Copy, steps: seq<Step>): (r: Engine)
    requires Inv(e)
    requires forall i :: 0 <= i < |steps| ==> UnitStep(steps[i])
    ensures Inv(r)
    ensures r.pair.symbol == e.pair.symbol
    decreases |steps|
  {
    if |steps| == 0 then e
    else Run(Apply(e, copy, steps[0]), copy, steps[1..])
  }

  predicate NoCandleStep(steps: seq<Step>) {
    forall i :: 0 <= i < |steps| ==> !steps[i].CandleStep?
  }

  /** Price ticks and subscriber changes leave the history and the current
      candle's time alone. */
  lemma {:induction false} NonCandleStepsKeepHistory(e: Engine, copy: Copy, steps: seq<Step>)
    requires Inv(e)
    requires forall i :: 0 <= i < |steps| ==> UnitStep(steps[i])
    requires NoCandleStep(steps)
    ensures Run(e, copy, steps).pair.history == e.pair.history
    ensures Run(e, copy, steps).current.time == e.current.time
    decreases |steps|
  {
    if |steps| > 0 {
      var e' := Apply(e, copy, steps[0]);
      assert e'.pair.history == e.pair.history && e'.current.time == e.current.time;
      assert NoCandleStep(steps[1..]) by {
        forall i | 0 <= i < |steps[1..]| ensures !steps[1..][i].CandleStep? {
          assert steps[1..][i] == steps[i + 1];
        }
      }
      assert forall i :: 0 <= i < |steps[1..]| ==> UnitStep(steps[1..][i]) by {
        forall i | 0 <= i < |steps[1..]| ensures UnitStep(steps[1..][i]) {
          assert steps[1..][i] == steps[i + 1];
        }
      }
      NonCandleStepsKeepHistory(e', copy, steps[1..]);
    }
  }

  /** The first rollover after start-up, whatever price ticks and subscriber
      changes came before it, leaves history as it was: the candle the loop
      started from, with every price tick folded into it, is dropped. This
      holds when the loop bootstraps the history and when initialisation
      already did. */
  lemma FirstRolloverAfterTicksDropsStartCandle(
    p: TradingPair, copy: Copy, t0: int, ds0: seq<CandleDraws>, t1: int, ds1: seq<CandleDraws>,
    steps: seq<Step>, nowSec: int, volume: real)
    requires p.history == [] && p.lastPrice > 0.0
    requires |ds0| == MaxCandleCount && AllUnitDraws(ds0) && |ds1| == MaxCandleCount
    requires forall i :: 0 <= i < |steps| ==> UnitStep(steps[i])
    requires NoCandleStep(steps)
    ensures var e := Run(StartSimulation(p, t0, ds0), copy, steps);
      CandleTick(e, nowSec, volume).pair.history == e.pair.history
    ensures var e := Run(StartSimulation(GenerateInitialCandleData(p, t0, ds0), t1, ds1), copy, steps);
      CandleTick(e, nowSec, volume).pair.history == e.pair.history
  {
    StartEstablishesInv(p, t0, ds0, t1, ds1);
    var s0 := StartSimulation(p, t0, ds0);
    var s1 := StartSimulation(GenerateInitialCandleData(p, t0, ds0), t1, ds1);
    NonCandleStepsKeepHistory(s0, copy, steps);
    NonCandleStepsKeepHistory(s1, copy, steps);
  }

  /** No step ever empties a history: once a pair has candles, every run
      leaves it with candles. */
  lemma {:induction false} RunKeepsHistoryNonEmpty(e: Engine, copy: Copy, steps: seq<Step>)
    requires Inv(e)
    requires forall i :: 0 <= i < |steps| ==> UnitStep(steps[i])
    requires e.pair.history != []
    ensures Run(e, copy, steps).pair.history != []
    decreases |steps|
  {
    if |steps| > 0 {
      var e' := Apply(e, copy, steps[0]);
      assert e'.pair.history != [];
      assert forall i :: 0 <= i < |steps[1..]| ==> UnitStep(steps[1..][i]) by {
        forall i | 0 <= i < |steps[1..]| ensures UnitStep(steps[1..][i]) {
          assert steps[1..][i] == steps[i + 1];
        }
      }
      RunKeepsHistoryNonEmpty(e', copy, steps[1..]);
    }
  }
}

=== FILE: subscribers.dfy ===
/**
  A pair's subscriber set: adding and removing a connection, and the
  broadcast that sends the pair's summary to every subscriber and drops
  each connection whose send failed. Which sends fail is a parameter.
 */
module Subscribers {
  import opened Models
  import opened Wrappers

  /** The live-update message: symbol, last price, percent change and the current candle. */
  datatype Update = Update(symbol: string, lastPrice: real, priceChange: real, lastCandle: Candle)

  /** The pair with `conn` subscribed; a second subscription changes nothing. */
  function Subscribe(p: TradingPair, conn: Conn): (q: TradingPair)
    ensures conn in q.subscribers
    ensures q.subscribers - {conn} == p.subscribers - {conn}
    ensures q.(subscribers := p.subscribers) == p
  {
    p.(subscribers := p.subscribers + {conn})
  }

  /** The pair with `conn` unsubscribed; a non-member leaves it as it was. */
  function Unsubscribe(p: TradingPair, conn: Conn): (q: TradingPair)
    ensures conn !in q.subscribers
    ensures q.subscribers + {conn} == p.subscribers + {conn}
    ensures q.(subscribers := p.subscribers) == p
  {
    p.(subscribers := p.subscribers - {conn})
  }

  lemma SubscribeIdempotent(p: TradingPair, conn: Conn)
    ensures Subscribe(Subscribe(p, conn), conn) == Subscribe(p, conn)
    ensures conn in p.subscribers ==> Subscribe(p, conn) == p
  {
  }

  lemma UnsubscribeIdempotent(p: TradingPair, conn: Conn)
    ensures Unsubscribe(Unsubscribe(p, conn), conn) == Unsubscribe(p, conn)
    ensures conn !in p.subscribers ==> Unsubscribe(p, conn) == p
  {
  }

  /** Unsubscribing undoes a subscription of a connection that was not yet a member. */
  lemma UnsubscribeUndoesSubscribe(p: TradingPair, conn: Conn)
    requires conn !in p.subscribers
    ensures Unsubscribe(Subscribe(p, conn), conn) == p
  {
    assert (p.subscribers + {conn}) - {conn} == p.subscribers;
  }

  /** The subscriber set a broadcast leaves behind: nothing happens without
      subscribers, otherwise every connection whose send failed is gone. */
  function Prune(subs: set<Conn>, failed: set<Conn>): (r: set<Conn>)
    ensures r <= subs
    ensures forall c :: c in subs ==> (c in r <==> c !in failed)
  {
    if subs == {} then subs else subs - failed
  }

  /** BroadcastUpdate: sends the pair's update to each subscriber in an
      unspecified order; a subscriber in `failed` rejects the send and is
      closed and removed, the others receive the update. */
  method BroadcastUpdate(p: TradingPair, failed: set<Conn>)
    returns (q: TradingPair, update: Option<Update>, delivered: set<Conn>, closed: set<Conn>)
    ensures q.subscribers == Prune(p.subscribers, failed)
    ensures q == p.(subscribers := q.subscribers)
    ensures p.subscribers == {} ==> q == p && update == None && delivered == {} && closed == {}
    ensures p.subscribers != {} ==>
      update == Some(Update(p.symbol, p.lastPrice, p.priceChange, p.lastCandle))
    ensures delivered == q.subscribers
    ensures closed == p.subscribers * failed
    ensures delivered + closed == p.subscribers && delivered !! closed
  {
    q := p;
    delivered := {};
    closed := {};
    if |p.subscribers| == 0 {
      update := None;
      return;
    }
    update := Some(Update(p.symbol, p.lastPrice, p.priceChange, p.lastCandle));
    var pending := p.subscribers;
    while pending != {}
      invariant pending <= p.subscribers
      invariant delivered == (p.subscribers - pending) - failed
      invariant closed == (p.subscribers - pending) * failed
      invariant q.subscribers == p.subscribers - closed
      invariant q == p.(subscribers := q.subscribers)
      decreases pending
    {
      var conn :| conn in pending;
      if conn in failed {
        closed := closed + {conn};
        q := q.(subscribers := q.subscribers - {conn});
      } else {
        delivered := delivered + {conn};
      }
      pending := pending - {conn};
    }
  }
}

=== FILE: wrappers.dfy ===
/** Failure-carrying results used by the registry operations. */
module Wrappers {

  datatype Option<+T> = None | Some(value: T)

  /** Either a value or the error the service reports instead of it. */
  datatype Result<+R, +E> = Success(value: R) | Failure(error: E)
}
